=== FILE: README.md ===
# Verifier metadata of the Foundation assembler, in Dafny

This project models the part of the Foundation bytecode assembler that produces the
metadata the Java Virtual Machine's type-checking verifier needs at control-flow merge
points (section 4.10.1 of the Java Virtual Machine Specification), and proves
properties of that model:

- **Type hints** (`type_hint.dfy`, module `TypeHints`): the verification types tracked
  on the operand stack and in the local-variable register. These are a real type,
  `Top`, uninitialised `this`, an uninitialised allocation keyed by type and
  allocation offset, and a synthetic `Guess`. The model covers their flags, widths,
  descriptors and names, and their constant forms. It also covers value-based
  equality that ignores the `initialised` flag, hash codes consistent with that
  equality, and the one-way `initialise()` transition. That transition is a class,
  `InitialisableHint`, whose method replaces the hint's value.
- **Branches** (`branch.dfy`, module `Branches`): a merge point that records the
  stack and register it expects. When control arrives, it either adopts the live
  state or checks it with the compatibility rule. It then snapshots its expectations
  into constant form. It also computes its own byte offset, and jump displacements
  to it, by summing element lengths over the code vector. The branch object is a
  class over nullable arrays. Each of its methods is tied to a specification
  function over the arrays' contents (`CheckFrameSpec`, `SnapshotSpec`,
  `NotifySpec`), and the lemmas are proved about those functions.
- **Stack map frames** (`stack_map_frame.dfy`, module `StackMapFrames`): the choice
  among same, chop, append, same-locals-one-stack-item and full frames (section 4.7.4
  of the Java Virtual Machine Specification). It is proved to pick the kind whose
  condition holds. It is also proved faithful: reading the chosen frame back against
  the previous state yields the current state.

`java_ints.dfy` writes out Java's `(short)` cast and 32-bit `int` wrap-around.
`wrappers.dfy` holds `Option`, which stands for Java's `null`.

The code vector is a sequence of elements with lengths. An element's `id` stands for
its object identity, so a branch is found in the vector by its `id`. The vector is
passed to the offset computations as a value. It is not reached through a handle.

Two facts about the code that the model keeps:

- `UnreachableBranch` and `UnconditionalBranch` override nothing, so they are
  checked like any branch.
- `This.equals` compares only the receiver, so the forms of one receiver before
  and after `initialise()` are equal.

## Model

| member | source | states |
|---|---|---|
| `TypeHints.Width` | Assembler/src/main/java/mx/kenzie/foundation/detail/TypeHint.java:46-48 | `width()`: 1 by default, a real type's or a guess's own width; `DefaultFlags` and `GuessFlags` state it per variant |
| `TypeHints.IsPrimitive` | Assembler/src/main/java/mx/kenzie/foundation/detail/TypeHint.java:50-52 | `isPrimitive()`: false by default, and only real types and guesses override it; `DefaultFlags` and `GuessFlags` state it |
| `TypeHints.IsInitialisedType` | Assembler/src/main/java/mx/kenzie/foundation/detail/TypeHint.java:54-56 | `isInitialisedType()`: true by default, false for `Top`, the flag for `This` and `Uninitialised`; `DefaultFlags`, `TopFlags`, `ThisBeforeAndAfter`, `UninitialisedBeforeAndAfter` and `FlagHierarchy` state it |
| `TypeHints.IsRealType` | Assembler/src/main/java/mx/kenzie/foundation/detail/TypeHint.java:58-60 | `isRealType()`: true by default, false for `Top`, the flag for `This`; the same lemmas state it |
| `TypeHints.IsTypeKnown` | Assembler/src/main/java/mx/kenzie/foundation/detail/TypeHint.java:62-64 | `isTypeKnown()`: true by default and false for `Top`; `TopFlags` and `FlagHierarchy` state it |
| `TypeHints.Descriptor` | Assembler/src/main/java/mx/kenzie/foundation/detail/TypeHint.java:165-168 | `descriptorString()`: "this" for `This` until initialised and its receiver's afterwards, the type's for `Uninitialised`, "T" for `Top`; `ThisBeforeAndAfter`, `UninitialisedBeforeAndAfter`, `TopFlags` and `Initialised` state it |
| `TypeHints.Name` | Assembler/src/main/java/mx/kenzie/foundation/detail/TypeHint.java:160-163 | `getTypeName()`: "this" for `This` until initialised and its receiver's afterwards; `ThisBeforeAndAfter` and `Initialised` state it |
| `TypeHints.Constant` | Assembler/src/main/java/mx/kenzie/foundation/detail/TypeHint.java:108-111 | `constant()`: an `Uninitialised` reduces to its declared type; `UninitialisedBeforeAndAfter` and `Branches.SnapshotIsConstant` state it |
| `TypeHints.Equals` | Assembler/src/main/java/mx/kenzie/foundation/detail/TypeHint.java:126-132 | `equals`: `EqualsIffSameKey` proves it holds exactly when the keys agree, `EqualsIsEquivalence` that it is an equivalence, `UninitialisedEquality` what each variant compares |
| `TypeHints.HashCode` | Assembler/src/main/java/mx/kenzie/foundation/detail/TypeHint.java:121-124 | `hashCode()`: `Objects.hash` of type and offset, or of the receiver; `HashAgreesWithEquals` proves it agrees with `equals` |
| `TypeHints.TotalWidth` | Assembler/src/main/java/mx/kenzie/foundation/detail/TypeHint.java:40-48 | hints of default width 1 add up to their count; non-negative widths add up to a non-negative total |
| `TypeHints.SumWidths` | Assembler/src/main/java/mx/kenzie/foundation/detail/TypeHint.java:40-44 | the static accumulating loop returns the sum of the individual widths |
| `TypeHints.TotalWidthConcat` | Assembler/src/main/java/mx/kenzie/foundation/detail/TypeHint.java:40-44 | the width of a concatenation of hint lists is the sum of their widths |
| `TypeHints.DefaultFlags` | Assembler/src/main/java/mx/kenzie/foundation/detail/TypeHint.java:46-64 | a real type is initialised, real and known; `Top`, `This` and `Uninitialised` keep the default width 1 and are not primitive |
| `TypeHints.TopFlags` | Assembler/src/main/java/mx/kenzie/foundation/detail/TypeHint.java:200-224 | `Top` is not initialised, not real and not known, its descriptor is "T", and it is its own constant |
| `TypeHints.GuessFlags` | Assembler/src/main/java/mx/kenzie/foundation/detail/TypeHint.java:195-196 | a `Guess` reports exactly the width, flags, descriptor and name it was built with |
| `TypeHints.NoTypeFlags` | Assembler/src/main/java/mx/kenzie/foundation/detail/TypeHint.java:36-38 | `none()` is a non-primitive, real, initialised type of width 1 |
| `TypeHints.FlagHierarchy` | Assembler/src/main/java/mx/kenzie/foundation/detail/TypeHint.java:46-64 | outside `Guess`, initialised implies real, real implies known, and only `Top` is unknown |
| `TypeHints.Key` | Assembler/src/main/java/mx/kenzie/foundation/detail/TypeHint.java:121-132 | the key has no `initialised` flag set anywhere, including in nested `This` receivers; a hint with no flag set, and any hint that cannot be initialised, is its own key |
| `TypeHints.EqualsIffSameKey` | Assembler/src/main/java/mx/kenzie/foundation/detail/TypeHint.java:121-186 | two hints are `equals` exactly when their keys are identical, so equality ignores the flags and nothing else |
| `TypeHints.EqualsIsEquivalence` | Assembler/src/main/java/mx/kenzie/foundation/detail/TypeHint.java:126-132 | `equals` is reflexive, symmetric and transitive |
| `TypeHints.EntryEqualsIsEquivalence` | Assembler/src/main/java/org/valross/foundation/assembler/code/Branch.java:149 | `Objects.equals` over nullable slots is reflexive, symmetric and transitive |
| `TypeHints.EntryEquals` | Assembler/src/main/java/org/valross/foundation/assembler/code/Branch.java:149 | `Objects.equals` over nullable slots; `EntryEqualsIsEquivalence` proves it is an equivalence |
| `TypeHints.UninitialisedEquality` | Assembler/src/main/java/mx/kenzie/foundation/detail/TypeHint.java:126-186 | two `Uninitialised` hints are equal exactly when their type and offset are equal, whatever their flags; two `This` hints exactly when their receivers are equal; neither equals its own constant or receiver |
| `TypeHints.ObjectsHash` | Assembler/src/main/java/mx/kenzie/foundation/detail/TypeHint.java:121-124 | `Objects.hash` yields a 32-bit value |
| `TypeHints.HashAgreesWithEquals` | Assembler/src/main/java/mx/kenzie/foundation/detail/TypeHint.java:121-186 | equal hints have equal hash codes, so the hash depends only on the type and offset (`Uninitialised`) or the receiver (`This`) |
| `TypeHints.Initialised` | Assembler/src/main/java/mx/kenzie/foundation/detail/TypeHint.java:103-106 | after `initialise()` the hint is initialised, real and known; it stays equal to what it was and keeps its width; `This` then shows its receiver's descriptor and name |
| `TypeHints.InitialiseIdempotent` | Assembler/src/main/java/mx/kenzie/foundation/detail/TypeHint.java:103-106 | initialising twice is the same as initialising once |
| `TypeHints.ThisBeforeAndAfter` | Assembler/src/main/java/mx/kenzie/foundation/detail/TypeHint.java:150-173 | before `initialise()`, `This` is neither initialised nor real and both its name and descriptor are "this"; afterwards both flags hold and it delegates to the receiver |
| `TypeHints.UninitialisedBeforeAndAfter` | Assembler/src/main/java/mx/kenzie/foundation/detail/TypeHint.java:82-111 | a new `Uninitialised` is not initialised but is real and known, shows its type's descriptor, has that type as its constant, and is initialised after `initialise()` |
| `TypeHints.Initialisable` | Assembler/src/main/java/mx/kenzie/foundation/detail/TypeHint.java:70-76 | the variants that implement `InitialisableType`, `Uninitialised` and `This`; `Initialised` and `InitialiseIdempotent` state what `initialise()` does to them |
| `TypeHints.InitialisableHint.Allocation` | Assembler/src/main/java/mx/kenzie/foundation/detail/TypeHint.java:82-86 | a new uninitialised allocation is not initialised |
| `TypeHints.InitialisableHint.Receiver` | Assembler/src/main/java/mx/kenzie/foundation/detail/TypeHint.java:146-148 | a new uninitialised `this` is neither initialised nor real |
| `TypeHints.InitialisableHint.Initialise` | Assembler/src/main/java/mx/kenzie/foundation/detail/TypeHint.java:170-173 | the object's hint becomes its initialised form, is initialised, and stays equal to the old hint |
| `JavaInts.ToShort` | Assembler/src/main/java/org/valross/foundation/assembler/code/Branch.java:107 | the `(short)` cast lies in the short range, agrees with its argument modulo 2^16, and leaves a short unchanged |
| `JavaInts.Wrap32` | Assembler/src/main/java/org/valross/foundation/assembler/code/Branch.java:118 | 32-bit `int` subtraction lies in the int range, agrees with the exact result modulo 2^32, and is exact when that fits |
| `Branches.Length` | Assembler/src/main/java/org/valross/foundation/assembler/code/Branch.java:31-33 | a branch occupies no bytes; `BranchPointsTakeNoSpace` proves that inserting one changes no offset |
| `Branches.Offset` | Assembler/src/main/java/org/valross/foundation/assembler/code/Branch.java:203-211 | the offset `index()` resolves to; `OffsetResolution` states when it is -1 and that it is otherwise the prefix sum, and `Index` computes it |
| `Branches.FirstPosition` | Assembler/src/main/java/org/valross/foundation/assembler/code/Branch.java:206-207 | the walk stops at the first element with the branch's identity, and finds none only when no element has it |
| `Branches.OffsetResolution` | Assembler/src/main/java/org/valross/foundation/assembler/code/Branch.java:203-211 | an offset is -1 exactly when there is no vector or the branch is not in it, and otherwise it is the non-negative sum of lengths before the branch |
| `Branches.BranchPointsTakeNoSpace` | Assembler/src/main/java/org/valross/foundation/assembler/code/Branch.java:31-33 | inserting a branch into the code changes no sum of lengths |
| `Branches.Index` | Assembler/src/main/java/org/valross/foundation/assembler/code/Branch.java:203-211 | `Handle.index()` returns -1 without a vector or when the branch is absent, and otherwise the sum of the lengths of the elements strictly before it |
| `Branches.PrefixBefore` | Assembler/src/main/java/org/valross/foundation/assembler/code/Branch.java:102-106 | the jump walk returns the sum of lengths before the first occurrence of the source, or of the whole vector when the source is absent |
| `Branches.PrefixLength` | Assembler/src/main/java/org/valross/foundation/assembler/code/Branch.java:102-106 | the bytes the jump walk counts before the source; `PrefixBefore` computes it and `GetJump` and `GetWideJump` subtract it from the target's offset |
| `Branches.GetJump` | Assembler/src/main/java/org/valross/foundation/assembler/code/Branch.java:100-109 | the jump is the target offset minus the source's offset, cut to 16 bits; from the source it reaches the target modulo 2^16, and exactly when the displacement fits in a short |
| `Branches.GetWideJump` | Assembler/src/main/java/org/valross/foundation/assembler/code/Branch.java:111-120 | the wide jump is the same displacement in 32-bit arithmetic, exact when it fits in an int |
| `Branches.SignedBigEndian` | Assembler/src/main/java/org/valross/foundation/assembler/code/Branch.java:230-234 | two bytes, high byte first, read back as a short |
| `Branches.HandleBinary` | Assembler/src/main/java/org/valross/foundation/assembler/code/Branch.java:213-234 | the handle's bytes number `HandleLength()`, which is 2, and read back as the offset cut to a short |
| `Branches.Wide` | Assembler/src/main/java/org/valross/foundation/assembler/code/Branch.java:213-216 | `wide()` is always false; `HandleLength` and `HandleBinary` rely on it |
| `Branches.HandleLength` | Assembler/src/main/java/org/valross/foundation/assembler/code/Branch.java:225-228 | `length()` is 2, since a handle is never wide; `HandleBinary` proves that many bytes are produced |
| `Branches.Compatible` | Assembler/src/main/java/org/valross/foundation/assembler/code/Branch.java:143-156 | what `isCompatible` accepts; `SlotCompatibleMeaning`, `CompatibleShape` and `CompatibleReflexive` state its properties and `IsCompatible` computes it |
| `Branches.SlotCompatible` | Assembler/src/main/java/org/valross/foundation/assembler/code/Branch.java:148-153 | the per-slot test of `isCompatible`; `SlotCompatibleMeaning` states when it holds and that it is symmetric |
| `Branches.NullNarrowing` | Assembler/src/main/java/org/valross/foundation/assembler/code/Branch.java:150-152 | the null allowance: a non-primitive type on one side and `none()` on the other; `SlotCompatibleMeaning` and `CompatibilityExamples` state it |
| `Branches.IsCompatible` | Assembler/src/main/java/org/valross/foundation/assembler/code/Branch.java:143-156 | the loop, with its shortcut for one and the same array, returns true exactly when the arrays have equal length and every slot is equal in either direction or is a non-primitive type against `none()` in either direction |
| `Branches.CompatibleReflexive` | Assembler/src/main/java/org/valross/foundation/assembler/code/Branch.java:144 | every state is compatible with itself, so the identity shortcut agrees with the loop |
| `Branches.SlotCompatibleMeaning` | Assembler/src/main/java/org/valross/foundation/assembler/code/Branch.java:147-155 | a slot is accepted exactly when the entries are equal or one is non-primitive and the other is `none()`, and any other mismatch is rejected; the slot rule is symmetric |
| `Branches.CompatibleShape` | Assembler/src/main/java/org/valross/foundation/assembler/code/Branch.java:145-146 | arrays of different lengths are never compatible, and compatibility is symmetric |
| `Branches.CopyOf` | Assembler/src/main/java/org/valross/foundation/assembler/code/Branch.java:140 | `Arrays.copyOf` keeps the first entries and pads with nulls to the requested length |
| `Branches.StartsWith` | Assembler/src/main/java/org/valross/foundation/assembler/code/Branch.java:139-141 | true exactly when the expected register is compatible with the live register truncated or null-padded to its length |
| `Branches.CompatibilityExamples` | Assembler/src/main/java/org/valross/foundation/assembler/code/Branch.java:143-156 | [int,int] against [int,int] passes; [int] against [long] fails; Object against `none()` passes both ways; int against `none()` fails; [int] against [int,float] fails but passes on the prefix |
| `Branches.PrintTable` | Assembler/src/main/java/org/valross/foundation/assembler/code/Branch.java:158-160 | printing an array completes exactly when no slot is null |
| `Branches.Failure` | Assembler/src/main/java/org/valross/foundation/assembler/code/Branch.java:124-136 | a failed check ends in `NullPointerException` when either printed array holds a null slot, otherwise in `IncompatibleBranchError`; `CheckFrameOutcome` states it |
| `Branches.CheckFrameSpec` | Assembler/src/main/java/org/valross/foundation/assembler/code/Branch.java:122-137 | what `checkFrame` does to the branch's state; `CheckFrameOutcome`, `CheckFramePassAgrees`, `CheckFrameIdempotent` and `CheckFrameExamples` state its properties and `Branch.CheckFrame` is proved against it |
| `Branches.Unset` | Assembler/src/main/java/org/valross/foundation/assembler/code/Branch.java:123 | a null or empty expectation, which `checkFrame` replaces by the live state; `CheckFrameOutcome` states the replacement |
| `Branches.CheckFrameExamples` | Assembler/src/main/java/org/valross/foundation/assembler/code/Branch.java:122-137 | `[int]` against `[long]` raises `IncompatibleBranchError` on the stack; `[int, null]` against `[long, null]` throws `NullPointerException`, and so does an expected register `[int, null]` against `[long, long]` |
| `Branches.PrefixRuleDecides` | Assembler/src/main/java/org/valross/foundation/assembler/code/Branch.java:131-136 | when the prefix test fails, the full compatibility test fails too, so a set register accepts a live one only through the prefix rule |
| `Branches.CheckFrameOutcome` | Assembler/src/main/java/org/valross/foundation/assembler/code/Branch.java:122-137 | `checkFrame` passes exactly when neither check fails. The stack check fails exactly when the expected stack is set and the live stack is non-empty and incompatible. The register check fails exactly when the stack passed, the expected register is set, the live register is non-empty, and the prefix check fails. A failure throws `NullPointerException` exactly when the expected or the live array of that part holds a null slot, and otherwise `IncompatibleBranchError`. Once the stack passes, an unset register adopts the live one and a set one is kept, whether the register check passes or fails; a stack failure changes nothing |
| `Branches.CheckFramePassAgrees` | Assembler/src/main/java/org/valross/foundation/assembler/code/Branch.java:122-137 | after a pass both expectations exist; a non-empty live stack is compatible with the expected one, and a non-empty live register is compatible on the expected prefix |
| `Branches.CheckFrameIdempotent` | Assembler/src/main/java/org/valross/foundation/assembler/code/Branch.java:122-137 | arriving again with the same live state passes and changes nothing |
| `Branches.SnapshotIsConstant` | Assembler/src/main/java/org/valross/foundation/assembler/code/Branch.java:66-75 | a snapshot has the source's length and its nulls, holds no uninitialised allocation, changes no other slot, and is its own snapshot |
| `Branches.Constants` | Assembler/src/main/java/org/valross/foundation/assembler/code/Branch.java:68-74 | the slot replacement of `snapshot`; `SnapshotIsConstant` states its properties and `CloneConstants` computes it |
| `Branches.SnapshotSpec` | Assembler/src/main/java/org/valross/foundation/assembler/code/Branch.java:66-75 | `snapshot` leaves the expected stack and register unchanged. It completes exactly when both are non-null, and then the snapshots are the constant forms of the two expectations. A null stack throws `NullPointerException` at the stack and changes nothing. A null register throws it at the register after the stack snapshot is stored |
| `Branches.StackMapSources` | Assembler/src/main/java/org/valross/foundation/assembler/code/Branch.java:25-28 | after a passing `notify` with both kinds of tracking, the stack map is the constant form of the expectations, with no uninitialised allocation on either side. Before any snapshot it is the expectations themselves. When the check passes, the snapshot that follows never throws |
| `Branches.StackMapOf` | Assembler/src/main/java/org/valross/foundation/assembler/code/Branch.java:25-28 | the frame map of a state: each snapshot when present, else the expectation; `StackMapSources` states what it holds after `notify` and `Branch.ToStackMap` computes it |
| `Branches.CloneConstants` | Assembler/src/main/java/org/valross/foundation/assembler/code/Branch.java:67-74 | the clone-and-replace loop yields a fresh array holding the constant form of every slot |
| `Branches.NotifySpec` | Assembler/src/main/java/org/valross/foundation/assembler/code/Branch.java:51-59 | what `notify` does to the branch's state; `StackMapSources` states its properties and `Branch.Notify` is proved against it |
| `Branches.ToArray` | Assembler/src/main/java/org/valross/foundation/assembler/code/Branch.java:124 | `toArray()` yields a fresh array holding the live slots |
| `Branches.Branch.constructor` | Assembler/src/main/java/org/valross/foundation/assembler/code/Branch.java:19-23 | a new branch has no expectation and no snapshot |
| `Branches.Branch.Implicit` | Assembler/src/main/java/org/valross/foundation/assembler/code/Branch.java:168-174 | the method-entry branch expects the parameter types in its register and nothing else |
| `Branches.Branch.SetRegister` | Assembler/src/main/java/org/valross/foundation/assembler/code/Branch.java:77-80 | the expected register becomes the given array; nothing else changes |
| `Branches.Branch.SetStack` | Assembler/src/main/java/org/valross/foundation/assembler/code/Branch.java:82-85 | the expected stack becomes the given array; nothing else changes |
| `Branches.Branch.CheckFrame` | Assembler/src/main/java/org/valross/foundation/assembler/code/Branch.java:122-137 | the new state and the outcome, including which exception a failure throws, are those of `CheckFrameSpec` on the old state, and the snapshots are untouched |
| `Branches.Branch.Snapshot` | Assembler/src/main/java/org/valross/foundation/assembler/code/Branch.java:66-75 | the new state and the outcome are those of `SnapshotSpec`: fresh constant copies become the snapshots, the expectations stay the same arrays, and a null stack or register throws `NullPointerException` with the stack snapshot already stored when only the register is null |
| `Branches.Branch.Notify` | Assembler/src/main/java/org/valross/foundation/assembler/code/Branch.java:51-59 | the new state and the outcome are those of `NotifySpec`: check first when frames are tracked, and stop if that raises; then snapshot when the stack is tracked, which throws on a null expectation |
| `Branches.Branch.ToStackMap` | Assembler/src/main/java/org/valross/foundation/assembler/code/Branch.java:25-28 | the frame map read from the arrays is each snapshot when present, else the expectation |
| `StackMapFrames.Of` | Assembler/src/main/java/mx/kenzie/foundation/assembler/attribute/frame/StackMapFrame.java:15-36 | the selected frame always carries the given offset |
| `StackMapFrames.OfSelectsFirstApplicable` | Assembler/src/main/java/mx/kenzie/foundation/assembler/attribute/frame/StackMapFrame.java:15-36 | Each kind is chosen exactly when its condition holds. Same: empty stack and equal registers. Chop: a loss of 1 to 3 registers, carrying the negative difference. Append: a gain of 1 to 3 registers, carrying exactly the last entries. One stack item: registers unchanged. Otherwise a full frame, carrying the whole stack and register |
| `StackMapFrames.ArraysEqual` | Assembler/src/main/java/mx/kenzie/foundation/assembler/attribute/frame/StackMapFrame.java:18-24 | `Arrays.equals`; `ArraysEqualIsEquivalence` proves it is an equivalence |
| `StackMapFrames.ArraysEqualIsEquivalence` | Assembler/src/main/java/mx/kenzie/foundation/assembler/attribute/frame/StackMapFrame.java:18-24 | `Arrays.equals` over hints is reflexive, symmetric and transitive |
| `StackMapFrames.OfRoundTrip` | Assembler/src/main/java/mx/kenzie/foundation/assembler/attribute/frame/StackMapFrame.java:15-36 | reading the selected frame back against the previous state, as the verifier does, yields the current state slot by slot |
| `StackMapFrames.SelectionExamples` | Assembler/src/main/java/mx/kenzie/foundation/assembler/attribute/frame/StackMapFrame.java:15-36 | [int,int,int] to itself gives same; to [int,int] gives chop −1; [int,int] to [int,int,float] gives append [float]; a single pushed int gives same-locals-one-stack-item; a change of four registers gives a full frame |
| `StackMapFrames.LengthIsBytesWritten` | Assembler/src/main/java/mx/kenzie/foundation/assembler/attribute/frame/StackMapFrame.java:42-50 | `length()`, 1 plus the info length, is the number of bytes written: the frame type, then the info |
| `StackMapFrames.FrameBytes` | Assembler/src/main/java/mx/kenzie/foundation/assembler/attribute/frame/StackMapFrame.java:46-50 | `write`: the frame type byte, then the info bytes; `LengthIsBytesWritten` states it |
| `StackMapFrames.FrameLength` | Assembler/src/main/java/mx/kenzie/foundation/assembler/attribute/frame/StackMapFrame.java:42-44 | `length()`: one plus the info length; `LengthIsBytesWritten` proves it is the number of bytes `write` emits |

## Left out

- `VerificationTypeInfo.of(storage, …)` and the constant-pool storage it uses are not part of this model. A frame carries the hints it lists, not their encodings.
- `Frame.Map` is not part of this model. Its `stackSize()` and `registerSize()` are taken to be the numbers of entries. If they count slot widths, chop and append differ for wide types.
- Byte output (`write` of branches, handles and frames) is left out, except as `HandleBinary` and `FrameBytes`. `Branch.binary()`, `code()` and `constant()` are constant plumbing and are left out too.
- `ProgramStack`/`ProgramRegister` are not part of this model. Their contents are the parameters `liveStack` and `liveRegister`. `isEmpty()` is taken to mean that `toArray()` is empty. `reframe` is left out.
- `CodeBuilder.trackFrames()` and `trackStack()` become the boolean parameters of `Notify`. `insert`, `setVector` and the handle's builder are left out: the code vector is passed to `Index`, `GetJump` and `GetWideJump` instead.
- The text of the `IncompatibleBranchError` message and `toString` are left out. The model records which part (stack or register) failed, and whether printing the message threw `NullPointerException`.
- The `Type` class is not part of this model. It is a record of descriptor, name, primitive flag and width. `Type.equals` is assumed to accept only a `Type` with the same four components, never a `Guess`, `This`, `Uninitialised` or `Top`. So `Equals` is symmetric, and the second direction `Objects.equals(their, our)` of `isCompatible` never decides a slot. The first ensures of `SlotCompatibleMeaning`, which has only one direction of `EntryEquals`, depends on this assumption. `Type.VOID_WRAPPER` is assumed to be the non-primitive reference `Ljava/lang/Void;`. `asType()`, `java.lang.reflect.Type`, `InstructionReference` and the `uninitialised(type, allocation, vector)` factory are left out. An allocation offset is a natural number, not a `UVec`.
- The hash codes of `Type`, of offsets and of the records `Top` and `Guess` are not defined in the modelled files. They are parameters (`Hashers`).
- `constant()` of every hint except `Uninitialised` comes from interfaces that are not part of this model. It is taken to be the hint itself.
- `TypeHints.Name`: `Top` does not override `getTypeName()`, so it is taken to get the default of `java.lang.reflect.Type`, `toString()`, which is "Top[]" for the record. The `Descriptor` interface is not part of this model and might override it.
- Hint objects are values here. In Java, `initialise()` on one `This` or `Uninitialised` object is seen through every array that holds it. That aliasing is not modelled.
- `TypeHints.SumWidths`: the sum is unbounded. Java's `int` wraps once the total passes 2^31 - 1, for example with 2^30 hints of a width-2 type or with one large `Guess` width. The model does not capture that wrap-around. Its argument is a sequence of hints, so the `NullPointerException` that Java throws on a null array or a null element is not represented.
- `Branches.Index`: offsets are unbounded sums. Java's `int` would wrap past 2^31 bytes of code, far beyond the 65535-byte limit on a method's code.
- `Branches.PrefixBefore`: the running sum is unbounded, where Java's `int` would wrap past 2^31 bytes of code, as in `Index`.
- `Branches.Branch.ToStackMap`: it requires an array on each side. A `Frame.Map` holding a null array is not represented.
- `Branches.GetJump`: it takes the code vector itself, because Java throws a `NullPointerException` when the handle has no vector. The encodings of `U2` and `U4` are not part of this model: the jump is returned as a number.
- `Branches.GetWideJump`: it takes the code vector itself for the same reason as `GetJump`, and returns the jump as a number rather than a `U4`.
- The stack-map-table framing and the offset deltas between consecutive frames are computed outside `StackMapFrame.of` and are not part of this model.
- `Branches.Branch.Implicit`: Java stores the caller's `parameters` array itself as the register, so the two alias each other. The model stores a fresh array holding the same hints.

=== FILE: branch.dfy ===
/**
 * Branches: the control-flow merge points of a method body (Branch.java).
 *
 * A branch stores the stack and register it expects on entry, checks every arriving
 * state against them, snapshots them into constant form for the stack map table, and
 * finds its own byte offset by summing element lengths over the code vector.
 *
 * The code vector is a sequence of elements; the `id` of an element stands for its
 * object identity, and a branch is found in the vector by its `id`.
 */
module Branches {

  import opened Wrappers
  import opened JavaInts
  import opened TypeHints

  // ---------------------------------------------------------------------------
  // The code vector and offsets

  /** An element of the code vector; `id` is its identity. */
  datatype Element =
    | Instruction(id: nat, size: nat)
      /** A branch marks a position in the code and occupies no bytes. */
    | BranchPoint(id: nat)

  /** `CodeElement.length()`; `Branch.length()` is 0. */
  function Length(e: Element): nat
  {
    match e
    case Instruction(_, n) => n
    case BranchPoint(_) => 0
  }

  /** The number of bytes the elements of `code` occupy. */
  function SumLengths(code: seq<Element>): nat
  {
    if code == [] then 0 else SumLengths(code[..|code| - 1]) + Length(code[|code| - 1])
  }

  /** The position of the first element of `code` with identity `id`, if any. */
  function FirstPosition(code: seq<Element>, id: nat): (p: Option<nat>)
    ensures p.Some? ==> p.value < |code| && code[p.value].id == id
    ensures p.Some? ==> forall j | 0 <= j < p.value :: code[j].id != id
    ensures p.None? ==> forall j | 0 <= j < |code| :: code[j].id != id
  {
    if code == [] then None
    else if code[0].id == id then Some(0)
    else match FirstPosition(code[1..], id)
      case None => None
      case Some(q) => Some(q + 1)
  }

  /**
   * The byte offset of element `id`: the total length of the elements before its
   * first occurrence, or -1 when there is no vector or the element is not in it.
   */
  function Offset(vector: Option<seq<Element>>, id: nat): int
  {
    if vector.None? then -1
    else match FirstPosition(vector.value, id)
      case None => -1
      case Some(p) => SumLengths(vector.value[..p])
  }

  /** The bytes before the first occurrence of `id`, or every byte when it is absent. */
  function PrefixLength(code: seq<Element>, id: nat): nat
  {
    match FirstPosition(code, id)
    case None => SumLengths(code)
    case Some(p) => SumLengths(code[..p])
  }

  /** An offset is -1 exactly when it is unresolved; a resolved offset is never negative. */
  lemma OffsetResolution(vector: Option<seq<Element>>, id: nat)
    ensures Offset(vector, id) == -1 <==> vector.None? || FirstPosition(vector.value, id).None?
    ensures Offset(vector, id) != -1 ==> Offset(vector, id) >= 0
    ensures vector.Some? ==> Offset(vector, id) == -1 || Offset(vector, id) == PrefixLength(vector.value, id)
  {
  }

  /** A branch point adds nothing to the offset of any element after it. */
  lemma {:induction false} BranchPointsTakeNoSpace(a: seq<Element>, b: seq<Element>, branch: nat)
    ensures SumLengths(a + [BranchPoint(branch)] + b) == SumLengths(a + b)
  {
    if b == [] {
      assert a + [BranchPoint(branch)] + b == a + [BranchPoint(branch)];
      assert (a + [BranchPoint(branch)])[..|a|] == a;
      assert a + b == a;
    } else {
      var b' := b[..|b| - 1];
      assert (a + [BranchPoint(branch)] + b)[..|a| + 1 + |b'|] == a + [BranchPoint(branch)] + b';
      assert (a + b)[..|a| + |b'|] == a + b';
      BranchPointsTakeNoSpace(a, b', branch);
    }
  }

  /** `Handle.index()`: the walk over the code vector. */
  method Index(vector: Option<seq<Element>>, id: nat) returns (index: int)
    ensures index == Offset(vector, id)
  {
    if vector.None? {
      return -1;
    }
    var code := vector.value;
    index := 0;
    for i := 0 to |code|
      invariant index == SumLengths(code[..i])
      invariant forall j | 0 <= j < i :: code[j].id != id
    {
      if code[i].id == id {
        return;
      }
      assert code[..i + 1][..i] == code[..i];
      index := index + Length(code[i]);
    }
    index := -1;
  }

  /** The walk shared by `getJump` and `getWideJump`: the bytes before `source`. */
  method PrefixBefore(code: seq<Element>, source: nat) returns (index: nat)
    ensures index == PrefixLength(code, source)
  {
    index := 0;
    var i := 0;
    while i < |code|
      invariant 0 <= i <= |code|
      invariant index == SumLengths(code[..i])
      invariant forall j | 0 <= j < i :: code[j].id != source
    {
      if code[i].id == source {
        break;
      }
      assert code[..i + 1][..i] == code[..i];
      index := index + Length(code[i]);
      i := i + 1;
    }
    assert i == |code| ==> code[..i] == code;
  }

  /**
   * `getJump(source)`: the displacement from `source` to this branch, narrowed to a
   * short. It reaches the branch modulo 2^16, and exactly when it fits in 16 bits.
   */
  method GetJump(code: seq<Element>, branch: nat, source: nat) returns (jump: int)
    ensures jump == ToShort(Offset(Some(code), branch) - PrefixLength(code, source))
    ensures IsShort(jump)
    ensures (PrefixLength(code, source) + jump - Offset(Some(code), branch)) % TWO_16 == 0
    ensures IsShort(Offset(Some(code), branch) - PrefixLength(code, source)) ==>
      PrefixLength(code, source) + jump == Offset(Some(code), branch)
  {
    var target := Index(Some(code), branch);
    var index := PrefixBefore(code, source);
    jump := ToShort(target - index);
  }

  /** `getWideJump(source)`: the same displacement in 32-bit `int` arithmetic. */
  method GetWideJump(code: seq<Element>, branch: nat, source: nat) returns (jump: int)
    ensures jump == Wrap32(Offset(Some(code), branch) - PrefixLength(code, source))
    ensures IsInt(Offset(Some(code), branch) - PrefixLength(code, source)) ==>
      PrefixLength(code, source) + jump == Offset(Some(code), branch)
  {
    var target := Index(Some(code), branch);
    var index := PrefixBefore(code, source);
    jump := Wrap32(target - index);
  }

  /** `Handle.wide()`: wide jumps are never emitted. */
  function Wide(): bool
  {
    false
  }

  /** `Handle.length()`: four bytes for a wide jump, otherwise two. */
  function HandleLength(): (n: int)
    ensures n == 2
  {
    if Wide() then 4 else 2
  }

  /** A two-byte big-endian value read back as a signed short. */
  function SignedBigEndian(b: seq<byte>): (x: int)
    requires |b| == 2
    ensures IsShort(x)
  {
    var u := b[0] as int * 256 + b[1] as int;
    if u >= 0x8000 then u - TWO_16 else u
  }

  /**
   * `Handle.binary()`: the offset narrowed to a short, high byte first. It has
   * `length()` bytes and reads back as that short.
   */
  function HandleBinary(index: int): (b: seq<byte>)
    ensures |b| == HandleLength()
    ensures SignedBigEndian(b) == ToShort(index)
  {
    var s := ToShort(index);
    var u := if s < 0 then s + TWO_16 else s;
    var hi, lo := u / 256, u % 256;
    [hi as byte, lo as byte]
  }

  // ---------------------------------------------------------------------------
  // Compatibility of an arriving state with an expected one

  /** The null allowance: a non-primitive type on one side, `none()` on the other. */
  predicate NullNarrowing(a: Entry, b: Entry)
  {
    a.Some? && !IsPrimitive(a.value) && EntryEquals(b, Some(NoType))
  }

  /** One slot of `isCompatible`. */
  predicate SlotCompatible(our: Entry, their: Entry)
  {
    EntryEquals(our, their) || EntryEquals(their, our)
    || NullNarrowing(our, their) || NullNarrowing(their, our)
  }

  /** What `isCompatible(ours, theirs)` accepts: equal length and every slot compatible. */
  predicate Compatible(ours: seq<Entry>, theirs: seq<Entry>)
  {
    |ours| == |theirs| && forall i | 0 <= i < |ours| :: SlotCompatible(ours[i], theirs[i])
  }

  /** `isCompatible`: the array loop, with its shortcut for one and the same array. */
  method IsCompatible(ours: array<Entry>, theirs: array<Entry>) returns (ok: bool)
    ensures ok == Compatible(ours[..], theirs[..])
  {
    if ours == theirs {
      CompatibleReflexive(ours[..]);
      return true;
    }
    var length := ours.Length;
    if theirs.Length != length {
      return false;
    }
    for i := 0 to length
      invariant forall j | 0 <= j < i :: SlotCompatible(ours[j], theirs[j])
    {
      var our, their := ours[i], theirs[i];
      if EntryEquals(our, their) || EntryEquals(their, our) {
        continue;
      }
      if our.Some? && !IsPrimitive(our.value) && EntryEquals(their, Some(NoType)) {
        continue;
      }
      if their.Some? && !IsPrimitive(their.value) && EntryEquals(our, Some(NoType)) {
        continue;
      }
      return false;
    }
    return true;
  }

  /** Every state is compatible with itself, which is what the identity shortcut relies on. */
  lemma CompatibleReflexive(s: seq<Entry>)
    ensures Compatible(s, s)
  {
    forall i | 0 <= i < |s|
      ensures SlotCompatible(s[i], s[i])
    {
      EntryEqualsIsEquivalence(s[i], s[i], s[i]);
    }
  }

  /**
   * A slot is accepted exactly when the two entries are equal, or one is a
   * non-primitive type and the other is `none()`; compatibility is symmetric.
   */
  lemma SlotCompatibleMeaning(a: Entry, b: Entry)
    ensures SlotCompatible(a, b) <==> EntryEquals(a, b) || NullNarrowing(a, b) || NullNarrowing(b, a)
    ensures SlotCompatible(a, b) <==> SlotCompatible(b, a)
  {
    EntryEqualsIsEquivalence(a, b, a);
    EntryEqualsIsEquivalence(b, a, b);
  }

  /** Different lengths are never compatible; compatibility is symmetric. */
  lemma CompatibleShape(ours: seq<Entry>, theirs: seq<Entry>)
    ensures |ours| != |theirs| ==> !Compatible(ours, theirs)
    ensures Compatible(ours, theirs) <==> Compatible(theirs, ours)
  {
  }

  /** `Arrays.copyOf(s, n)`: truncated, or padded with nulls, to length `n`. */
  function CopyOf(s: seq<Entry>, n: nat): (r: seq<Entry>)
    ensures |r| == n
    ensures forall i | 0 <= i < n :: r[i] == if i < |s| then s[i] else None
  {
    if n <= |s| then s[..n] else s + seq(n - |s|, _ => None)
  }

  /** `startsWith(theirs, ours)`: `ours` is compatible with `theirs` cut or padded to its length. */
  method StartsWith(theirs: array<Entry>, ours: array<Entry>) returns (b: bool)
    ensures b == Compatible(ours[..], CopyOf(theirs[..], ours.Length))
  {
    var copy := new Entry[ours.Length](i reads theirs => if 0 <= i < theirs.Length then theirs[i] else None);
    assert copy[..] == CopyOf(theirs[..], ours.Length);
    b := IsCompatible(ours, copy);
  }

  /**
   * Copying a sequence to its own length gives it back, so for a live state of the
   * expected length the prefix check is the full check.
   */
  lemma CopyOfSameLength(s: seq<Entry>)
    ensures CopyOf(s, |s|) == s
  {
  }

  const Int: Entry := Some(Real(Type("I", "int", true, 1)))
  const Long: Entry := Some(Real(Type("J", "long", true, 2)))
  const Float: Entry := Some(Real(Type("F", "float", true, 1)))
  const Object: Entry := Some(Real(Type("Ljava/lang/Object;", "java.lang.Object", false, 1)))

  /** Examples of the compatibility rule: equal types, a narrowing to `none()`, and a prefix. */
  lemma CompatibilityExamples()
    ensures Compatible([Int, Int], [Int, Int])
    ensures !Compatible([Int], [Long])
    ensures Compatible([Object], [Some(NoType)]) && Compatible([Some(NoType)], [Object])
    ensures !Compatible([Int], [Some(NoType)])
    ensures !Compatible([Int], [Int, Float]) && Compatible([Int], CopyOf([Int, Float], 1))
  {
    assert Int.value.ty.descriptor[0] != Long.value.ty.descriptor[0];
    assert !SlotCompatible([Int][0], [Long][0]);
    assert !SlotCompatible(Int, Some(NoType));
  }

  // ---------------------------------------------------------------------------
  // The branch's state and its specification

  /** Which check of `checkFrame` failed. */
  datatype Part = StackPart | RegisterPart

  /**
   * Normal completion, `IncompatibleBranchError`, or the `NullPointerException` that
   * building that error's message throws when a printed array holds a null slot.
   */
  datatype Outcome = Pass | IncompatibleBranchError(part: Part) | NullPointerException(part: Part)

  /**
   * How a failed check of `part` ends: the message prints the expected array and
   * then the live one, and printing a null slot throws.
   */
  function Failure(part: Part, expected: seq<Entry>, live: seq<Entry>): Outcome
  {
    if None in expected || None in live then NullPointerException(part) else IncompatibleBranchError(part)
  }

  /** The contents of a branch's four arrays; `None` is a null array. */
  datatype BranchState = BranchState(
    stack: Option<seq<Entry>>,
    register: Option<seq<Entry>>,
    stackSnapshot: Option<seq<Entry>>,
    registerSnapshot: Option<seq<Entry>>)

  /** The result of `checkFrame`: the new state and how it ended. */
  datatype Checked = Checked(state: BranchState, outcome: Outcome)

  /** A null or empty expectation, which `checkFrame` replaces by the live state. */
  predicate Unset(a: Option<seq<Entry>>)
  {
    a.None? || a.value == []
  }

  /** What `checkFrame` does to a branch in state `st` when `liveStack` and `liveRegister` arrive. */
  function CheckFrameSpec(st: BranchState, liveStack: seq<Entry>, liveRegister: seq<Entry>): Checked
  {
    if !Unset(st.stack) && liveStack != [] && !Compatible(st.stack.value, liveStack) then
      Checked(st, Failure(StackPart, st.stack.value, liveStack))
    else
      var st1 := if Unset(st.stack) then st.(stack := Some(liveStack)) else st;
      if Unset(st1.register) then
        Checked(st1.(register := Some(liveRegister)), Pass)
      else if Compatible(st1.register.value, CopyOf(liveRegister, |st1.register.value|)) then
        Checked(st1, Pass)
      else if liveRegister != [] && !Compatible(st1.register.value, liveRegister) then
        Checked(st1, Failure(RegisterPart, st1.register.value, liveRegister))
      else
        Checked(st1, Pass)
  }

  /**
   * When `checkFrame` raises, which exception, and what it changes: a failed check
   * ends in `IncompatibleBranchError` unless one of the two arrays its message prints
   * holds a null slot; an unset expectation adopts the live state; a set one is kept;
   * the snapshots are untouched.
   */
  lemma CheckFrameOutcome(st: BranchState, liveStack: seq<Entry>, liveRegister: seq<Entry>)
    ensures var c := CheckFrameSpec(st, liveStack, liveRegister);
      var stackOk := Unset(st.stack) || liveStack == [] || Compatible(st.stack.value, liveStack);
      var registerFails := stackOk && !Unset(st.register) && liveRegister != []
        && !Compatible(st.register.value, CopyOf(liveRegister, |st.register.value|));
      && (c.outcome.Pass? <==> stackOk && !registerFails)
      && (!stackOk ==>
            && !c.outcome.Pass? && c.outcome.part == StackPart
            && (c.outcome.NullPointerException? <==> None in st.stack.value || None in liveStack))
      && (registerFails ==>
            && !c.outcome.Pass? && c.outcome.part == RegisterPart
            && (c.outcome.NullPointerException? <==> None in st.register.value || None in liveRegister))
      && (stackOk ==> c.state.stack == if Unset(st.stack) then Some(liveStack) else st.stack)
      && (!stackOk ==> c.state == st)
      && (stackOk ==> c.state.register == if Unset(st.register) then Some(liveRegister) else st.register)
      && c.state.register in {st.register, Some(liveRegister)}
      && c.state.stackSnapshot == st.stackSnapshot && c.state.registerSnapshot == st.registerSnapshot
  {
  }

  /**
   * Once the prefix test of `startsWith` fails, the full `isCompatible` test fails too,
   * so a set register accepts an arriving one only through the prefix rule, and the
   * full test decides nothing of its own.
   */
  lemma PrefixRuleDecides(expected: seq<Entry>, live: seq<Entry>)
    ensures !Compatible(expected, CopyOf(live, |expected|)) ==> !Compatible(expected, live)
  {
    CopyOfSameLength(live);
  }

  /**
   * Examples of a failed check: a mismatch ends in `IncompatibleBranchError` when
   * every printed slot is set, and in `NullPointerException` when one is null.
   */
  lemma CheckFrameExamples()
    ensures CheckFrameSpec(BranchState(Some([Int]), None, None, None), [Long], []).outcome
      == IncompatibleBranchError(StackPart)
    ensures CheckFrameSpec(BranchState(Some([Int, None]), None, None, None), [Long, None], []).outcome
      == NullPointerException(StackPart)
    ensures CheckFrameSpec(BranchState(Some([]), Some([Int, None]), None, None), [], [Long, Long]).outcome
      == NullPointerException(RegisterPart)
  {
    CompatibilityExamples();
    assert !SlotCompatible([Int, None][0], [Long, None][0]);
    assert !SlotCompatible([Int, None][0], [Long, Long][0]);
  }

  /**
   * After a passing `checkFrame` the branch has both expectations, and the live state
   * agrees with them: an empty live stack or register is not checked, and the live
   * register is compared on the expected prefix only.
   */
  lemma CheckFramePassAgrees(st: BranchState, liveStack: seq<Entry>, liveRegister: seq<Entry>)
    requires CheckFrameSpec(st, liveStack, liveRegister).outcome == Pass
    ensures var s := CheckFrameSpec(st, liveStack, liveRegister).state;
      s.stack.Some? && s.register.Some?
      && (liveStack == [] || Compatible(s.stack.value, liveStack))
      && (liveRegister == [] || Compatible(s.register.value, CopyOf(liveRegister, |s.register.value|)))
  {
    CompatibleReflexive(liveStack);
    CompatibleReflexive(liveRegister);
    CopyOfSameLength(liveRegister);
    if !Unset(st.register) && Compatible(st.register.value, liveRegister) {
      CopyOfSameLength(liveRegister);
    }
  }

  /** Arriving twice with the same live state: the second check passes and changes nothing. */
  lemma CheckFrameIdempotent(st: BranchState, liveStack: seq<Entry>, liveRegister: seq<Entry>)
    requires CheckFrameSpec(st, liveStack, liveRegister).outcome == Pass
    ensures var s := CheckFrameSpec(st, liveStack, liveRegister).state;
      CheckFrameSpec(s, liveStack, liveRegister) == Checked(s, Pass)
  {
    CheckFramePassAgrees(st, liveStack, liveRegister);
    CompatibleReflexive(liveStack);
    CompatibleReflexive(liveRegister);
    CopyOfSameLength(liveRegister);
  }

  /** The constant form of every non-null slot, as `snapshot` stores it. */
  function Constants(s: seq<Entry>): seq<Entry>
  {
    seq(|s|, i requires 0 <= i < |s| => if s[i].Some? then Some(Constant(s[i].value)) else s[i])
  }

  /**
   * A snapshot has the length of its source, keeps its nulls, holds no
   * uninitialised allocation, changes nothing else, and is its own snapshot.
   */
  lemma SnapshotIsConstant(s: seq<Entry>)
    ensures |Constants(s)| == |s|
    ensures forall i | 0 <= i < |s| :: Constants(s)[i].None? <==> s[i].None?
    ensures forall i | 0 <= i < |s| :: Constants(s)[i].Some? ==> !Constants(s)[i].value.Uninitialised?
    ensures forall i | 0 <= i < |s| :: s[i].Some? && !s[i].value.Uninitialised? ==> Constants(s)[i] == s[i]
    ensures Constants(Constants(s)) == Constants(s)
  {
  }

  /**
   * What `snapshot` does: a constant copy of the stack, then of the register. A null
   * stack throws before anything changes; a null register throws after the stack
   * snapshot is stored. The expectations stay as they are.
   */
  function SnapshotSpec(st: BranchState): (c: Checked)
    ensures c.state.stack == st.stack && c.state.register == st.register
    ensures c.outcome.Pass? <==> st.stack.Some? && st.register.Some?
    ensures c.outcome == Pass || c.outcome == NullPointerException(StackPart)
      || c.outcome == NullPointerException(RegisterPart)
    ensures c.outcome.Pass? ==>
      c.state.stackSnapshot == Some(Constants(st.stack.value))
      && c.state.registerSnapshot == Some(Constants(st.register.value))
    ensures c.outcome == NullPointerException(RegisterPart) ==>
      st.stack.Some? && c.state.stackSnapshot == Some(Constants(st.stack.value))
    ensures c.outcome == NullPointerException(StackPart) <==> st.stack.None?
    ensures c.outcome == NullPointerException(StackPart) ==> c.state == st
  {
    if st.stack.None? then Checked(st, NullPointerException(StackPart))
    else
      var st1 := st.(stackSnapshot := Some(Constants(st.stack.value)));
      if st.register.None? then Checked(st1, NullPointerException(RegisterPart))
      else Checked(st1.(registerSnapshot := Some(Constants(st.register.value))), Pass)
  }

  /** `Frame.Map`: a register and a stack. */
  datatype FrameMap = FrameMap(register: seq<Entry>, stack: seq<Entry>)

  /** Whether `toStackMap` has an array on each side to use. */
  predicate HasStackMap(st: BranchState)
  {
    (st.registerSnapshot.Some? || st.register.Some?) && (st.stackSnapshot.Some? || st.stack.Some?)
  }

  /** `toStackMap`: each snapshot when present, otherwise the expectation. */
  function StackMapOf(st: BranchState): FrameMap
    requires HasStackMap(st)
  {
    FrameMap(if st.registerSnapshot.Some? then st.registerSnapshot.value else st.register.value,
             if st.stackSnapshot.Some? then st.stackSnapshot.value else st.stack.value)
  }

  /** What `notify` does, leaving out the re-framing of the live stack and register. */
  function NotifySpec(st: BranchState, trackFrames: bool, trackStack: bool,
                      liveStack: seq<Entry>, liveRegister: seq<Entry>): Checked
  {
    var c := if trackFrames then CheckFrameSpec(st, liveStack, liveRegister) else Checked(st, Pass);
    if c.outcome.Pass? && trackStack then SnapshotSpec(c.state) else c
  }

  /**
   * After `notify` with both kinds of tracking, the stack map of a branch that passed
   * is the constant form of what it expects, with no uninitialised allocation left;
   * before any snapshot it is the expectation itself.
   */
  lemma StackMapSources(st: BranchState, liveStack: seq<Entry>, liveRegister: seq<Entry>)
    ensures var c := NotifySpec(st, true, true, liveStack, liveRegister);
      c.outcome == Pass ==>
        HasStackMap(c.state)
        && StackMapOf(c.state) == FrameMap(Constants(c.state.register.value), Constants(c.state.stack.value))
        && (forall i | 0 <= i < |StackMapOf(c.state).register| ::
              StackMapOf(c.state).register[i].Some? ==> !StackMapOf(c.state).register[i].value.Uninitialised?)
        && (forall i | 0 <= i < |StackMapOf(c.state).stack| ::
              StackMapOf(c.state).stack[i].Some? ==> !StackMapOf(c.state).stack[i].value.Uninitialised?)
    ensures st.stackSnapshot.None? && st.registerSnapshot.None? && st.stack.Some? && st.register.Some? ==>
      StackMapOf(st) == FrameMap(st.register.value, st.stack.value)
    ensures CheckFrameSpec(st, liveStack, liveRegister).outcome == Pass ==>
      NotifySpec(st, true, true, liveStack, liveRegister).outcome == Pass
  {
    if CheckFrameSpec(st, liveStack, liveRegister).outcome == Pass {
      CheckFramePassAgrees(st, liveStack, liveRegister);
    }
  }

  // ---------------------------------------------------------------------------
  // The branch object

  /** The contents of a nullable array. */
  function Contents(a: array?<Entry>): Option<seq<Entry>>
    reads a
  {
    if a == null then None else Some(a[..])
  }

  /** `ProgramStack.toArray()` / `ProgramRegister.toArray()`: a fresh array of the live slots. */
  method ToArray(s: seq<Entry>) returns (a: array<Entry>)
    ensures fresh(a) && a[..] == s
  {
    a := new Entry[|s|](i requires 0 <= i < |s| => s[i]);
  }

  /** `clone()` followed by the replacement of every non-null slot by its `constant()`. */
  method CloneConstants(a: array<Entry>) returns (c: array<Entry>)
    ensures fresh(c) && c[..] == Constants(a[..])
  {
    c := new Entry[a.Length](i reads a => if 0 <= i < a.Length then a[i] else None);
    for i := 0 to c.Length
      invariant forall j | 0 <= j < i :: c[j] == Constants(a[..])[j]
      invariant forall j | i <= j < c.Length :: c[j] == a[j]
    {
      if c[i] != None {
        c[i] := Some(Constant(c[i].value));
      }
    }
  }

  /**
   * `printTable(array)` maps `getTypeName` over the slots in order, so it completes
   * exactly when no slot is null; on the first null slot it throws.
   */
  method PrintTable(a: array<Entry>) returns (prints: bool)
    ensures prints <==> None !in a[..]
  {
    for i := 0 to a.Length
      invariant None !in a[..i]
    {
      if a[i] == None {
        assert a[..][i] == None;
        return false;
      }
      assert a[..i + 1] == a[..i] + [a[i]];
    }
    assert a[..a.Length] == a[..];
    return true;
  }

  /**
   * A branch (also `UnconditionalBranch` and `UnreachableBranch`, which add nothing).
   * `id` is its identity in the code vector.
   */
  class Branch {

    const id: nat
    var stack: array?<Entry>
    var register: array?<Entry>
    var stackSnapshot: array?<Entry>
    var registerSnapshot: array?<Entry>

    function State(): BranchState
      reads this, stack, register, stackSnapshot, registerSnapshot
    {
      BranchState(Contents(stack), Contents(register), Contents(stackSnapshot), Contents(registerSnapshot))
    }

    /** A new branch expects nothing yet and has no snapshot. */
    constructor (id: nat)
      ensures this.id == id && State() == BranchState(None, None, None, None)
    {
      this.id := id;
      stack, register, stackSnapshot, registerSnapshot := null, null, null, null;
    }

    /** `ImplicitBranch(parameters...)`: the method entry, whose register holds the parameter types. */
    constructor Implicit(id: nat, parameters: seq<Type>)
      ensures this.id == id
      ensures State().stack.None? && State().stackSnapshot.None? && State().registerSnapshot.None?
      ensures State().register == Some(seq(|parameters|, i requires 0 <= i < |parameters| => Some(Real(parameters[i]))))
    {
      this.id := id;
      var locals := seq(|parameters|, i requires 0 <= i < |parameters| => Some(Real(parameters[i])));
      var a := ToArray(locals);
      stack, register, stackSnapshot, registerSnapshot := null, a, null, null;
    }

    /** `register(locals...)`: replaces the expected register. */
    method SetRegister(locals: array?<Entry>)
      modifies this
      ensures register == locals
      ensures stack == old(stack) && stackSnapshot == old(stackSnapshot) && registerSnapshot == old(registerSnapshot)
      ensures State() == old(State()).(register := Contents(locals))
    {
      register := locals;
    }

    /** `stack(stack...)`: replaces the expected stack. */
    method SetStack(entries: array?<Entry>)
      modifies this
      ensures stack == entries
      ensures register == old(register) && stackSnapshot == old(stackSnapshot) && registerSnapshot == old(registerSnapshot)
      ensures State() == old(State()).(stack := Contents(entries))
    {
      stack := entries;
    }

    /** `checkFrame(stack, register)` with the live slots of the program stack and register. */
    method CheckFrame(liveStack: seq<Entry>, liveRegister: seq<Entry>) returns (outcome: Outcome)
      modifies this
      ensures Checked(State(), outcome) == CheckFrameSpec(old(State()), liveStack, liveRegister)
      ensures stackSnapshot == old(stackSnapshot) && registerSnapshot == old(registerSnapshot)
    {
      outcome := Pass;
      if stack == null || stack.Length == 0 {
        stack := ToArray(liveStack);
      } else if liveStack != [] {
        var live := ToArray(liveStack);
        var ok := IsCompatible(stack, live);
        if !ok {
          var expectedPrints := PrintTable(stack);
          var livePrints := PrintTable(live);
          return if expectedPrints && livePrints then IncompatibleBranchError(StackPart)
                 else NullPointerException(StackPart);
        }
      }
      if register == null || register.Length == 0 {
        register := ToArray(liveRegister);
      } else {
        var live := ToArray(liveRegister);
        var prefix := StartsWith(live, register);
        if prefix {
          return;
        }
        if liveRegister != [] {
          var ok := IsCompatible(register, live);
          if !ok {
            var expectedPrints := PrintTable(register);
            var livePrints := PrintTable(live);
            outcome := if expectedPrints && livePrints then IncompatibleBranchError(RegisterPart)
                       else NullPointerException(RegisterPart);
          }
        }
      }
    }

    /** `snapshot()`: constant copies of the expectations; the expectations stay as they are. */
    method Snapshot() returns (outcome: Outcome)
      modifies this
      ensures Checked(State(), outcome) == SnapshotSpec(old(State()))
      ensures stack == old(stack) && register == old(register)
      ensures stack != null ==> fresh(stackSnapshot)
      ensures stack == null ==> stackSnapshot == old(stackSnapshot)
      ensures outcome.Pass? ==> fresh(registerSnapshot)
      ensures !outcome.Pass? ==> registerSnapshot == old(registerSnapshot)
    {
      if stack == null {
        return NullPointerException(StackPart);
      }
      stackSnapshot := CloneConstants(stack);
      if register == null {
        return NullPointerException(RegisterPart);
      }
      registerSnapshot := CloneConstants(register);
      return Pass;
    }

    /** `notify(builder)`: check the arriving state, then snapshot. */
    method Notify(trackFrames: bool, trackStack: bool, liveStack: seq<Entry>, liveRegister: seq<Entry>)
      returns (outcome: Outcome)
      modifies this
      ensures Checked(State(), outcome)
        == NotifySpec(old(State()), trackFrames, trackStack, liveStack, liveRegister)
    {
      outcome := Pass;
      if trackFrames {
        outcome := CheckFrame(liveStack, liveRegister);
        if outcome != Pass {
          return;
        }
      }
      if trackStack {
        outcome := Snapshot();
      }
    }

    /** `toStackMap()`. */
    function ToStackMap(): (m: FrameMap)
      reads this, stack, register, stackSnapshot, registerSnapshot
      requires HasStackMap(State())
      ensures m == StackMapOf(State())
    {
      FrameMap(if registerSnapshot != null then registerSnapshot[..] else register[..],
               if stackSnapshot != null then stackSnapshot[..] else stack[..])
    }
  }
}

=== FILE: java_ints.dfy ===
/**
 * Java's fixed-width integer behaviour, written out over unbounded `int`:
 * the `(short)` narrowing cast and 32-bit `int` wrap-around.
 */
module JavaInts {

  const TWO_16: int := 0x1_0000
  const TWO_32: int := 0x1_0000_0000

  /** An unsigned byte as written to a class file. */
  newtype byte = x: int | 0 <= x < 0x100

  predicate IsShort(x: int) { -0x8000 <= x < 0x8000 }

  predicate IsInt(x: int) { -0x8000_0000 <= x < 0x8000_0000 }

  /** Java's `(short) x`: the low 16 bits of `x`, read as a two's-complement number. */
  function ToShort(x: int): (r: int)
    ensures IsShort(r)
    ensures (x - r) % TWO_16 == 0
    ensures IsShort(x) ==> r == x
  {
    (x + 0x8000) % TWO_16 - 0x8000
  }

  /** Java `int` arithmetic: the exact result reduced to 32 bits, two's complement. */
  function Wrap32(x: int): (r: int)
    ensures IsInt(r)
    ensures (x - r) % TWO_32 == 0
    ensures IsInt(x) ==> r == x
  {
    (x + 0x8000_0000) % TWO_32 - 0x8000_0000
  }

}

=== FILE: stack_map_frame.dfy ===
/**
 * Stack map frames (StackMapFrame.java): the choice of the smallest frame kind that
 * describes one merge point's state relative to the previous one, following the
 * StackMapTable attribute of section 4.7.4 of the Java Virtual Machine Specification.
 *
 * A frame carries the hints it lists; their encoding into verification type infos
 * is a separate step and is not part of this model.
 */
module StackMapFrames {

  import opened Wrappers
  import opened JavaInts
  import opened TypeHints
  import opened Branches

  datatype Frame =
      /** `SameFrame`: the registers are unchanged and the stack is empty. */
    | SameFrame(offset: int)
      /**
       * `ShiftFrame`: a chop (negative `difference`, nothing appended) or an append
       * (positive `difference`, the appended register entries).
       */
    | ShiftFrame(offset: int, difference: int, appended: seq<Entry>)
      /** `SameLocalsOneStackFrame`: the registers are unchanged and the stack holds one item. */
    | SameLocalsOneStackFrame(offset: int, item: Entry)
      /** `FullFrame`: every stack entry and every register entry. */
    | FullFrame(offset: int, stack: seq<Entry>, register: seq<Entry>)

  /** `Arrays.equals`: equal lengths and `Objects.equals` slot by slot. */
  predicate ArraysEqual(a: seq<Entry>, b: seq<Entry>)
  {
    |a| == |b| && forall i | 0 <= i < |a| :: EntryEquals(a[i], b[i])
  }

  function Min(a: int, b: int): int
  {
    if a <= b then a else b
  }

  function Full(offset: int, ours: FrameMap): Frame
  {
    FullFrame(offset, ours.stack, ours.register)
  }

  /**
   * `StackMapFrame.of(storage, offset, previous, ours)`. The stack and register
   * sizes are the numbers of entries.
   */
  function Of(offset: int, previous: FrameMap, ours: FrameMap): (f: Frame)
    ensures f.offset == offset
  {
    var stackSize := |ours.stack|;
    if stackSize == 0 then
      if ArraysEqual(ours.register, previous.register) then SameFrame(offset)
      else
        var ourSize, theirSize := |ours.register|, |previous.register|;
        var difference := ourSize - theirSize;
        if ourSize != theirSize && difference > -4 && difference < 4 then
          var ourLength := |ours.register|;
          var total := Min(ourLength, |previous.register|);
          if ArraysEqual(ours.register[..total], previous.register[..total]) then
            if difference < 0 then ShiftFrame(offset, difference, [])
            else ShiftFrame(offset, difference, ours.register[ourLength - difference..ourLength])
          else Full(offset, ours)
        else Full(offset, ours)
    else if stackSize == 1 && ArraysEqual(ours.register, previous.register) then
      SameLocalsOneStackFrame(offset, ours.stack[0])
    else Full(offset, ours)
  }

  // ---------------------------------------------------------------------------
  // When each kind of frame applies

  /** Empty stack, registers equal to the previous ones. */
  predicate SameApplies(previous: FrameMap, ours: FrameMap)
  {
    ours.stack == [] && ArraysEqual(ours.register, previous.register)
  }

  /** Empty stack, one to three registers fewer, the rest equal to the previous ones. */
  predicate ChopApplies(previous: FrameMap, ours: FrameMap)
  {
    ours.stack == [] && 0 < |previous.register| - |ours.register| <= 3
    && ArraysEqual(ours.register, previous.register[..|ours.register|])
  }

  /** Empty stack, one to three registers more, the previous ones unchanged. */
  predicate AppendApplies(previous: FrameMap, ours: FrameMap)
  {
    ours.stack == [] && 0 < |ours.register| - |previous.register| <= 3
    && ArraysEqual(ours.register[..|previous.register|], previous.register)
  }

  /** One stack item, registers equal to the previous ones. */
  predicate OneItemApplies(previous: FrameMap, ours: FrameMap)
  {
    |ours.stack| == 1 && ArraysEqual(ours.register, previous.register)
  }

  /**
   * `of` picks the first kind that applies, in the order same, chop or append,
   * same-locals-one-stack-item, full; the conditions exclude one another, so each
   * kind is chosen exactly when it applies. A chop carries the negative size change,
   * an append the positive one and exactly the new trailing entries, and a full
   * frame the whole stack and register.
   */
  lemma OfSelectsFirstApplicable(offset: int, previous: FrameMap, ours: FrameMap)
    ensures Of(offset, previous, ours).SameFrame? <==> SameApplies(previous, ours)
    ensures ChopApplies(previous, ours) <==>
      Of(offset, previous, ours) == ShiftFrame(offset, |ours.register| - |previous.register|, [])
        && |ours.register| < |previous.register|
    ensures AppendApplies(previous, ours) <==>
      |ours.register| > |previous.register|
      && Of(offset, previous, ours)
        == ShiftFrame(offset, |ours.register| - |previous.register|, ours.register[|previous.register|..])
    ensures Of(offset, previous, ours).SameLocalsOneStackFrame? <==> OneItemApplies(previous, ours)
    ensures OneItemApplies(previous, ours) ==>
      Of(offset, previous, ours) == SameLocalsOneStackFrame(offset, ours.stack[0])
    ensures Of(offset, previous, ours).FullFrame? <==>
      !SameApplies(previous, ours) && !ChopApplies(previous, ours)
      && !AppendApplies(previous, ours) && !OneItemApplies(previous, ours)
    ensures Of(offset, previous, ours).FullFrame? ==>
      Of(offset, previous, ours) == FullFrame(offset, ours.stack, ours.register)
  {
  }

  // ---------------------------------------------------------------------------
  // Reading a frame back

  /**
   * The state a frame describes, given the previous one, as the verifier reads it
   * (section 4.7.4 of the Java Virtual Machine Specification); `None` for a chop of
   * more registers than there are.
   */
  function Apply(previous: FrameMap, f: Frame): Option<FrameMap>
  {
    match f
    case SameFrame(_) => Some(FrameMap(previous.register, []))
    case ShiftFrame(_, d, appended) =>
      if d < 0 then
        if |previous.register| + d >= 0 then Some(FrameMap(previous.register[..|previous.register| + d], []))
        else None
      else Some(FrameMap(previous.register + appended, []))
    case SameLocalsOneStackFrame(_, item) => Some(FrameMap(previous.register, [item]))
    case FullFrame(_, stack, register) => Some(FrameMap(register, stack))
  }

  /** Two states that agree slot by slot under `Objects.equals`. */
  predicate SameState(a: FrameMap, b: FrameMap)
  {
    ArraysEqual(a.register, b.register) && ArraysEqual(a.stack, b.stack)
  }

  /** `Arrays.equals` is an equivalence relation. */
  lemma ArraysEqualIsEquivalence(a: seq<Entry>, b: seq<Entry>, c: seq<Entry>)
    ensures ArraysEqual(a, a)
    ensures ArraysEqual(a, b) ==> ArraysEqual(b, a)
    ensures ArraysEqual(a, b) && ArraysEqual(b, c) ==> ArraysEqual(a, c)
  {
    forall i | 0 <= i < |a|
      ensures EntryEquals(a[i], a[i])
      ensures i < |b| ==> (EntryEquals(a[i], b[i]) ==> EntryEquals(b[i], a[i]))
      ensures i < |b| && i < |c| ==> (EntryEquals(a[i], b[i]) && EntryEquals(b[i], c[i]) ==> EntryEquals(a[i], c[i]))
    {
      var bi := if i < |b| then b[i] else a[i];
      var ci := if i < |c| then c[i] else a[i];
      EntryEqualsIsEquivalence(a[i], bi, ci);
    }
  }

  /**
   * The frame `of` selects is a faithful description: read back against the previous
   * state it yields the current state, up to `equals` on each slot.
   */
  lemma OfRoundTrip(offset: int, previous: FrameMap, ours: FrameMap)
    ensures Apply(previous, Of(offset, previous, ours)).Some?
    ensures SameState(Apply(previous, Of(offset, previous, ours)).value, ours)
  {
    OfSelectsFirstApplicable(offset, previous, ours);
    var f := Of(offset, previous, ours);
    var m := Apply(previous, f).value;
    ArraysEqualIsEquivalence(ours.stack, ours.stack, ours.stack);
    if SameApplies(previous, ours) {
      ArraysEqualIsEquivalence(ours.register, previous.register, ours.register);
    } else if ChopApplies(previous, ours) {
      ArraysEqualIsEquivalence(ours.register, previous.register[..|ours.register|], ours.register);
    } else if AppendApplies(previous, ours) {
      var n := |previous.register|;
      ArraysEqualIsEquivalence(ours.register[..n], previous.register, ours.register[..n]);
      ArraysEqualIsEquivalence(ours.register, ours.register, ours.register);
      assert m.register == previous.register + ours.register[n..];
      forall i | 0 <= i < |ours.register|
        ensures EntryEquals(m.register[i], ours.register[i])
      {
        if i < n {
          assert EntryEquals(previous.register[i], ours.register[..n][i]);
        } else {
          assert m.register[i] == ours.register[i];
        }
      }
    } else if OneItemApplies(previous, ours) {
      ArraysEqualIsEquivalence(ours.register, previous.register, ours.register);
    } else {
      ArraysEqualIsEquivalence(ours.register, ours.register, ours.register);
    }
  }

  /** Examples of each kind of frame being chosen. */
  lemma SelectionExamples(offset: int)
    ensures Of(offset, FrameMap([Int, Int, Int], []), FrameMap([Int, Int, Int], [])) == SameFrame(offset)
    ensures Of(offset, FrameMap([Int, Int, Int], []), FrameMap([Int, Int], [])) == ShiftFrame(offset, -1, [])
    ensures Of(offset, FrameMap([Int, Int], []), FrameMap([Int, Int, Float], [])) == ShiftFrame(offset, 1, [Float])
    ensures Of(offset, FrameMap([Int], []), FrameMap([Int], [Int])) == SameLocalsOneStackFrame(offset, Int)
    ensures Of(offset, FrameMap([], []), FrameMap([Int, Int, Int, Int], []))
      == FullFrame(offset, [], [Int, Int, Int, Int])
  {
  }

  // ---------------------------------------------------------------------------
  // Encoded length

  /** `write`: the frame type byte, then the info bytes. */
  function FrameBytes(frameType: byte, info: seq<byte>): seq<byte>
  {
    [frameType] + info
  }

  /** `length()`: one byte of frame type plus the info. */
  function FrameLength(info: seq<byte>): nat
  {
    1 + |info|
  }

  /** `length()` is the number of bytes `write` emits. */
  lemma LengthIsBytesWritten(frameType: byte, info: seq<byte>)
    ensures |FrameBytes(frameType, info)| == FrameLength(info)
    ensures FrameBytes(frameType, info)[0] == frameType && FrameBytes(frameType, info)[1..] == info
  {
  }
}

=== FILE: type_hint.dfy ===
/**
 * Verification type hints: the closed family of types the assembler tracks on the
 * operand stack and in the local-variable register (TypeHint.java).
 *
 * A hint is a value. The two uninitialised variants carry their `initialised` flag as
 * part of the value; the one-way transition that Java performs on the object in place
 * is the class `InitialisableHint` below. Java's `equals` is `Equals`, which ignores
 * the flag, and `Key` is an independent description of it: two hints are equal exactly
 * when their keys are identical.
 */
module TypeHints {

  import opened Wrappers
  import opened JavaInts

  /**
   * A real type (the assembler's `Type` class). That class is not part of this model;
   * a real type is known here only by its descriptor, its name, whether it is
   * primitive and its slot width, and two real types are equal when these agree.
   */
  datatype Type = Type(descriptor: string, name: string, primitive: bool, width: nat)

  /** `Type.VOID_WRAPPER`, the "no type" of a known null (a non-primitive reference). */
  const VoidWrapper: Type := Type("Ljava/lang/Void;", "java.lang.Void", false, 1)

  /** `TypeHint.none()`: the hint for the "no type" placeholder. */
  const NoType: Hint := Real(VoidWrapper)

  datatype Hint =
      /** A real type: a `Type` used directly as a hint. */
    | Real(ty: Type)
      /** `Top`: the placeholder for "no type constraint". */
    | Top
      /** `This`: the receiver before its super-constructor has run. */
    | UninitialisedThis(receiver: Hint, initialised: bool)
      /** `Uninitialised`: an object allocated at `offset`, before its constructor has run. */
    | Uninitialised(ty: Type, offset: nat, initialised: bool)
      /** `Guess`: a synthetic description with every flag given explicitly. */
    | Guess(width: int, primitive: bool, initialisedType: bool, realType: bool,
            typeKnown: bool, descriptor: string, name: string)

  /** A slot of a stack or register array; `None` is Java's `null`. */
  type Entry = Option<Hint>

  // ---------------------------------------------------------------------------
  // Flags, descriptor, name and constant form of each variant

  /** `width()`: 1 unless the variant says otherwise. */
  function Width(h: Hint): int
  {
    match h
    case Real(t) => t.width
    case Guess(w, _, _, _, _, _, _) => w
    case _ => 1
  }

  function IsPrimitive(h: Hint): bool
  {
    match h
    case Real(t) => t.primitive
    case Guess(_, p, _, _, _, _, _) => p
    case _ => false
  }

  function IsInitialisedType(h: Hint): bool
  {
    match h
    case Top => false
    case UninitialisedThis(_, i) => i
    case Uninitialised(_, _, i) => i
    case Guess(_, _, i, _, _, _, _) => i
    case Real(_) => true
  }

  function IsRealType(h: Hint): bool
  {
    match h
    case Top => false
    case UninitialisedThis(_, i) => i
    case Guess(_, _, _, r, _, _, _) => r
    case _ => true
  }

  function IsTypeKnown(h: Hint): bool
  {
    match h
    case Top => false
    case Guess(_, _, _, _, k, _, _) => k
    case _ => true
  }

  function Descriptor(h: Hint): string
  {
    match h
    case Real(t) => t.descriptor
    case Top => "T"
    case UninitialisedThis(r, i) => if i then Descriptor(r) else "this"
    case Uninitialised(t, _, _) => t.descriptor
    case Guess(_, _, _, _, _, d, _) => d
  }

  /**
   * `getTypeName()`. `Top` does not override it, so it gets the default of
   * `java.lang.reflect.Type`, which is `toString()`: "Top[]" for the empty record.
   */
  function Name(h: Hint): string
  {
    match h
    case Real(t) => t.name
    case Top => "Top[]"
    case UninitialisedThis(r, i) => if i then Name(r) else "this"
    case Uninitialised(t, _, _) => t.name
    case Guess(_, _, _, _, _, _, n) => n
  }

  /** `constant()`: an uninitialised allocation reduces to its declared type; every other hint is its own constant. */
  function Constant(h: Hint): Hint
  {
    match h
    case Uninitialised(t, _, _) => Real(t)
    case _ => h
  }

  // ---------------------------------------------------------------------------
  // Static width of several hints

  /** The sum of the widths of `types`. */
  function TotalWidth(types: seq<Hint>): (w: int)
    ensures (forall i | 0 <= i < |types| :: Width(types[i]) == 1) ==> w == |types|
    ensures (forall i | 0 <= i < |types| :: Width(types[i]) >= 0) ==> w >= 0
  {
    if types == [] then 0 else TotalWidth(types[..|types| - 1]) + Width(types[|types| - 1])
  }

  /** Static `TypeHint.width(types...)`: the accumulating loop. */
  method SumWidths(types: seq<Hint>) returns (width: int)
    ensures width == TotalWidth(types)
  {
    width := 0;
    for i := 0 to |types|
      invariant width == TotalWidth(types[..i])
    {
      assert types[..i + 1][..i] == types[..i];
      width := width + Width(types[i]);
    }
    assert types[..|types|] == types;
  }

  /** The total width of a concatenation is the sum of the totals. */
  lemma {:induction false} TotalWidthConcat(a: seq<Hint>, b: seq<Hint>)
    ensures TotalWidth(a + b) == TotalWidth(a) + TotalWidth(b)
  {
    if b != [] {
      assert (a + b)[..|a + b| - 1] == a + b[..|b| - 1];
      TotalWidthConcat(a, b[..|b| - 1]);
    } else {
      assert a + b == a;
    }
  }

  /** The flags every variant takes from the interface defaults, unless it overrides them. */
  lemma DefaultFlags(t: Type)
    ensures IsInitialisedType(Real(t)) && IsRealType(Real(t)) && IsTypeKnown(Real(t))
    ensures Width(Real(t)) == t.width && IsPrimitive(Real(t)) == t.primitive
    ensures Width(Top) == 1 && !IsPrimitive(Top)
    ensures forall r, i :: Width(UninitialisedThis(r, i)) == 1 && !IsPrimitive(UninitialisedThis(r, i))
    ensures forall o, i :: Width(Uninitialised(t, o, i)) == 1 && !IsPrimitive(Uninitialised(t, o, i))
  {
  }

  /** `Top` is neither initialised, real nor known, and its descriptor is "T". */
  lemma TopFlags()
    ensures !IsInitialisedType(Top) && !IsRealType(Top) && !IsTypeKnown(Top)
    ensures Descriptor(Top) == "T" && Constant(Top) == Top
  {
  }

  /** A `Guess` reports exactly the flags, width, descriptor and name it was built with. */
  lemma GuessFlags(w: int, p: bool, i: bool, r: bool, k: bool, d: string, n: string)
    ensures var g := Guess(w, p, i, r, k, d, n);
      Width(g) == w && IsPrimitive(g) == p && IsInitialisedType(g) == i && IsRealType(g) == r
      && IsTypeKnown(g) == k && Descriptor(g) == d && Name(g) == n && Constant(g) == g
  {
  }

  /** `none()` is a real, initialised reference type, so the null allowance of branch checks applies to it. */
  lemma NoTypeFlags()
    ensures !IsPrimitive(NoType) && IsRealType(NoType) && IsInitialisedType(NoType) && Width(NoType) == 1
  {
  }

  /**
   * Outside `Guess`, the flags form a hierarchy: initialised implies real,
   * real implies known, and only `Top` is unknown.
   */
  lemma FlagHierarchy(h: Hint)
    requires !h.Guess?
    ensures IsInitialisedType(h) ==> IsRealType(h)
    ensures IsRealType(h) ==> IsTypeKnown(h)
    ensures !IsTypeKnown(h) <==> h.Top?
  {
  }

  // ---------------------------------------------------------------------------
  // Equality and hash code

  /**
   * Java `equals`: value-based across the whole family. A real type equals the same
   * real type; `This` compares only its `real` hint; `Uninitialised` compares only its
   * type and offset; the records compare all their components. The `initialised`
   * flags take no part.
   */
  predicate Equals(a: Hint, b: Hint)
  {
    match a
    case Real(t) => b.Real? && b.ty == t
    case Top => b.Top?
    case UninitialisedThis(r, _) => b.UninitialisedThis? && Equals(r, b.receiver)
    case Uninitialised(t, o, _) => b.Uninitialised? && b.ty == t && b.offset == o
    case Guess(_, _, _, _, _, _, _) => a == b
  }

  /** `Objects.equals` over nullable slots. */
  predicate EntryEquals(a: Entry, b: Entry)
  {
    (a.None? && b.None?) || (a.Some? && b.Some? && Equals(a.value, b.value))
  }

  /** No `initialised` flag is set, at the top or in any `This` receiver. */
  predicate FlagFree(h: Hint)
  {
    match h
    case UninitialisedThis(r, i) => !i && FlagFree(r)
    case Uninitialised(_, _, i) => !i
    case _ => true
  }

  /** What `Equals` looks at: the hint with every `initialised` flag cleared. */
  function Key(h: Hint): (k: Hint)
    ensures FlagFree(k)
    ensures FlagFree(h) ==> k == h
    ensures !Initialisable(h) ==> k == h
  {
    match h
    case UninitialisedThis(r, _) => UninitialisedThis(Key(r), false)
    case Uninitialised(t, o, _) => Uninitialised(t, o, false)
    case _ => h
  }

  /** Two hints are equal exactly when their keys are identical. */
  lemma {:induction false} EqualsIffSameKey(a: Hint, b: Hint)
    ensures Equals(a, b) <==> Key(a) == Key(b)
  {
    match a
    case UninitialisedThis(r, _) =>
      if b.UninitialisedThis? {
        EqualsIffSameKey(r, b.receiver);
      }
    case _ =>
  }

  /** `Equals` is an equivalence relation. */
  lemma {:induction false} EqualsIsEquivalence(a: Hint, b: Hint, c: Hint)
    ensures Equals(a, a)
    ensures Equals(a, b) ==> Equals(b, a)
    ensures Equals(a, b) && Equals(b, c) ==> Equals(a, c)
  {
    EqualsIffSameKey(a, a);
    EqualsIffSameKey(a, b);
    EqualsIffSameKey(b, a);
    EqualsIffSameKey(b, c);
    EqualsIffSameKey(a, c);
  }

  /** `Objects.equals` over slots is an equivalence relation too. */
  lemma EntryEqualsIsEquivalence(a: Entry, b: Entry, c: Entry)
    ensures EntryEquals(a, a)
    ensures EntryEquals(a, b) ==> EntryEquals(b, a)
    ensures EntryEquals(a, b) && EntryEquals(b, c) ==> EntryEquals(a, c)
  {
    if a.Some? && b.Some? {
      EqualsIsEquivalence(a.value, b.value, if c.Some? then c.value else a.value);
    } else if a.Some? {
      EqualsIsEquivalence(a.value, a.value, a.value);
    }
  }

  /**
   * Two `Uninitialised` hints are equal exactly when type and offset agree,
   * whatever their flags; two `This` hints exactly when their receivers are equal.
   */
  lemma UninitialisedEquality(t1: Type, o1: nat, i1: bool, t2: Type, o2: nat, i2: bool, r1: Hint, r2: Hint)
    ensures Equals(Uninitialised(t1, o1, i1), Uninitialised(t2, o2, i2)) <==> t1 == t2 && o1 == o2
    ensures Equals(UninitialisedThis(r1, i1), UninitialisedThis(r2, i2)) <==> Equals(r1, r2)
    ensures !Equals(Uninitialised(t1, o1, i1), Real(t1)) && !Equals(UninitialisedThis(r1, i1), r1)
  {
    EqualsIffSameKey(UninitialisedThis(r1, i1), r1);
  }

  /** Hash functions of the collaborators whose `hashCode` is not part of this model. */
  datatype Hashers = Hashers(ofType: Type -> int, ofOffset: nat -> int, ofRecord: Hint -> int)

  /** `Objects.hash(values...)`: the 31-multiplier fold of `Arrays.hashCode`, in 32-bit arithmetic. */
  function ObjectsHash(values: seq<int>): (r: int)
    ensures IsInt(r)
  {
    if values == [] then 1
    else Wrap32(31 * ObjectsHash(values[..|values| - 1]) + values[|values| - 1])
  }

  /**
   * `hashCode()`: `Uninitialised` hashes its type and offset, `This` its real hint;
   * real types and the records use the collaborators' hashes.
   */
  function HashCode(h: Hint, hs: Hashers): int
  {
    match h
    case Real(t) => hs.ofType(t)
    case UninitialisedThis(r, _) => ObjectsHash([HashCode(r, hs)])
    case Uninitialised(t, o, _) => ObjectsHash([hs.ofType(t), hs.ofOffset(o)])
    case _ => hs.ofRecord(h)
  }

  /** Equal hints have equal hash codes, so the flag never affects a hash. */
  lemma {:induction false} HashAgreesWithEquals(a: Hint, b: Hint, hs: Hashers)
    requires Equals(a, b)
    ensures HashCode(a, hs) == HashCode(b, hs)
  {
    match a
    case UninitialisedThis(r, _) => HashAgreesWithEquals(r, b.receiver, hs);
    case _ =>
  }

  // ---------------------------------------------------------------------------
  // The initialise transition

  /** The variants that implement `InitialisableType`. */
  predicate Initialisable(h: Hint)
  {
    h.UninitialisedThis? || h.Uninitialised?
  }

  /** The value of an initialisable hint after `initialise()`. */
  function Initialised(h: Hint): (r: Hint)
    requires Initialisable(h)
    ensures Initialisable(r) && r.initialised
    ensures IsInitialisedType(r) && IsRealType(r) && IsTypeKnown(r)
    ensures Equals(h, r) && Equals(r, h) && Width(r) == Width(h)
    ensures h.UninitialisedThis? ==> Descriptor(r) == Descriptor(h.receiver) && Name(r) == Name(h.receiver)
    ensures h.Uninitialised? ==> Descriptor(r) == Descriptor(h) && Constant(r) == Constant(h)
  {
    var r := h.(initialised := true);
    EqualsIffSameKey(h, r);
    EqualsIffSameKey(r, h);
    r
  }

  /** `initialise()` is idempotent and never undone. */
  lemma InitialiseIdempotent(h: Hint)
    requires Initialisable(h)
    ensures Initialised(Initialised(h)) == Initialised(h)
  {
  }

  /**
   * Before `initialise()`, `This` is neither initialised nor real and is called "this";
   * after it, both flags hold and it delegates to the receiver's type.
   */
  lemma ThisBeforeAndAfter(receiver: Hint)
    ensures var h := UninitialisedThis(receiver, false);
      !IsInitialisedType(h) && !IsRealType(h) && Descriptor(h) == "this" && Name(h) == "this"
    ensures var h := Initialised(UninitialisedThis(receiver, false));
      IsInitialisedType(h) && IsRealType(h) && Descriptor(h) == Descriptor(receiver) && Name(h) == Name(receiver)
  {
  }

  /**
   * A fresh `Uninitialised` is not initialised, but it is a real, known type whose
   * descriptor and constant are those of its declared type.
   */
  lemma UninitialisedBeforeAndAfter(t: Type, offset: nat)
    ensures var h := Uninitialised(t, offset, false);
      !IsInitialisedType(h) && IsRealType(h) && IsTypeKnown(h)
      && Descriptor(h) == t.descriptor && Constant(h) == Real(t)
    ensures IsInitialisedType(Initialised(Uninitialised(t, offset, false)))
  {
  }

  /**
   * An uninitialised hint object. Java flips a private flag of the object; here the
   * object holds the hint's current value and `Initialise` replaces it.
   */
  class InitialisableHint {

    var hint: Hint

    ghost predicate Valid()
      reads this
    {
      Initialisable(hint)
    }

    /** `new Uninitialised(type, offset)`. */
    constructor Allocation(ty: Type, offset: nat)
      ensures Valid() && hint == Uninitialised(ty, offset, false)
      ensures !IsInitialisedType(hint)
    {
      hint := Uninitialised(ty, offset, false);
    }

    /** `new This(real)`. */
    constructor Receiver(receiver: Hint)
      ensures Valid() && hint == UninitialisedThis(receiver, false)
      ensures !IsInitialisedType(hint) && !IsRealType(hint)
    {
      hint := UninitialisedThis(receiver, false);
    }

    /** `initialise()`: sets the flag; the hint stays equal to what it was. */
    method Initialise()
      requires Valid()
      modifies this
      ensures Valid() && hint == Initialised(old(hint))
      ensures IsInitialisedType(hint) && Equals(old(hint), hint)
    {
      hint := hint.(initialised := true);
    }
  }
}

=== FILE: wrappers.dfy ===
/** Option, standing in for Java's nullable references. */
module Wrappers {

  datatype Option<+T> = None | Some(value: T)

}
